=== FILE: README.md ===
# JS-SDK credential client, modelled in Dafny

This project models the JS-SDK client of the easywechat library
(`src/Applications/Jssdk/Client.php`). The client gives a web page what it
needs to call the WeChat JavaScript bridge. It keeps a jsapi *ticket* in a
shared cache under the key `overtrue.wechat.jsapi_ticket.<app_id>` and
fetches a fresh one from the remote `cgi-bin/ticket/getticket` endpoint when
the key is missing or a refresh is forced. It signs the page with
SHA-1 over `jsapi_ticket=<ticket>&noncestr=<nonce>&timestamp=<timestamp>&url=<url>`.
Finally it wraps the signature fields, together with `debug`, `beta` and
`jsApiList`, into the configuration handed to the page.

Files and modules:

- `wrappers.dfy` (`Wrappers`): `Option` and `Result`.
- `php.dfy` (`Php`): PHP scalars (`null`, booleans, integers, strings), their truthiness, the short ternary `?:`, and the string form interpolation gives them. Integers are written in decimal, and a parser reads them back.
- `canonical.dfy` (`Canonical`): the signing template, plus a parser for it. It proves that the template can be read back, and is injective, whenever the ticket, nonce and timestamp contain no `&`. It also shows that, without escaping, two different field sets can give the same string.
- `assoc.dfy` (`Assoc`): PHP arrays with string keys as ordered key/value lists, and `array_merge` over them.
- `jssdk_client.dfy` (`Jssdk`): the client itself.

The client's state is an immutable `Client` value with three parts: the cache (key to ticket and TTL), the stored URL (`null` in a fresh client, see `Init`, until `setUrl`), and a counter of remote fetches. The operations that change state (`Ticket`, `SetUrl`, `Signature`, `Config`, `GetConfigArray`) take a state and return the state they leave; `GetUrl` only reads it, and `CacheKey` and `GetSignature` do not involve it. The collaborators the client calls are fields of `Env`:

- the configured `app_id`;
- what `Support\current_url()` returns;
- the remote endpoint, as `remote(n)`, the answer to the n-th fetch;
- SHA-1, as an uninterpreted `string -> string`.

What `Str::quickRandom(10)` and `time()` return is passed to `Signature`, `Config` and `GetConfigArray` as the parameters `randomNonce` and `now`, which come first. The PHP parameters follow them and keep the source's defaults: `refresh := false`, `url`, `nonce` and `timestamp := Null`, `debug` and `beta := Bool(false)`, `json := Bool(true)`. Like PHP's `$json ? … : …`, `Config` tests `json` for truthiness.

## Model

| member | source | states |
|---|---|---|
| `Jssdk.CacheKey` | src/Applications/Jssdk/Client.php:79 | the key is the prefix `overtrue.wechat.jsapi_ticket.` followed by exactly the app id |
| `Jssdk.CacheKeyInjective` | src/Applications/Jssdk/Client.php:37 | two app ids share a cache key if and only if they are equal |
| `Jssdk.Ticket` | src/Applications/Jssdk/Client.php:77-89 | on a non-forced call with the key present: returns the cached ticket, makes no fetch, changes nothing. Otherwise: exactly one fetch. On success it returns the fetched ticket, and the key now maps to that ticket with TTL `expires_in - 500`; every other key keeps its entry. On failure the error propagates and the cache is unchanged. The stored URL is never touched |
| `Jssdk.Init` | src/Applications/Jssdk/Client.php:32 | a fresh client has no stored URL, so `getUrl()` gives the current page URL; it has made no fetch |
| `Jssdk.Expire` | src/Applications/Jssdk/Client.php:81 | the cache backend dropping one expired key: that key is absent afterwards and every other entry is kept |
| `Jssdk.TicketTwiceFetchesAtMostOnce` | src/Applications/Jssdk/Client.php:81-88 | when the first of two consecutive non-forced calls succeeds, the two make at most one fetch between them. They return the same ticket, and the second leaves the state unchanged. (A failed first call is followed by a second fetch.) |
| `Jssdk.TicketAfterExpiryFetches` | src/Applications/Jssdk/Client.php:81-85 | once the entry has expired, a non-forced call fetches again |
| `Jssdk.SignFields` | src/Applications/Jssdk/Client.php:127 | the interpolated fields can be told apart (no `&` in the first three) whenever the ticket and nonce interpolate without `&` and the timestamp is an integer, and always when none of the three is a string |
| `Jssdk.GetSignature` | src/Applications/Jssdk/Client.php:125-128 | the result is the hash of the template `jsapi_ticket=…&noncestr=…&timestamp=…&url=…` over the four interpolated fields, for every input, `&` included. When the first three hold no `&`, the template parser reads the hashed string back as exactly those fields |
| `Jssdk.SignatureBindsFields` | src/Applications/Jssdk/Client.php:125-128 | assume a collision-free hash and `&`-free ticket, nonce and timestamp. Then two `getSignature` results agree if and only if all four interpolated fields agree, so the hash covers exactly those fields in that order |
| `Jssdk.GetSignatureExample` | src/Applications/Jssdk/Client.php:127 | ticket `abc123`, nonce `noncestr1`, timestamp 1000000000, url `http://example.com/page` are hashed as the literal string `jsapi_ticket=abc123&noncestr=noncestr1&timestamp=1000000000&url=http://example.com/page` |
| `Jssdk.SetUrl` | src/Applications/Jssdk/Client.php:137-142 | the stored URL becomes the argument; the cache and the fetch count are left alone |
| `Jssdk.GetUrl` | src/Applications/Jssdk/Client.php:149-156 | returns the stored URL when it is truthy, and the current page URL otherwise |
| `Jssdk.SetUrlThenGetUrl` | src/Applications/Jssdk/Client.php:137-156 | after `setUrl(u)` with a truthy `u`, `getUrl()` returns `u`. After a falsy `u`, it returns the current page URL |
| `Jssdk.Signature` | src/Applications/Jssdk/Client.php:100-113 | the state change and success/failure are exactly those of a non-forced `ticket()`. `appId` is the configured app id. Each truthy argument is echoed unchanged; each falsy one (`null`, `false`, `0`, `""`, `"0"`) becomes its default. The `signature` field is `getSignature` over the fetched ticket and the resolved nonce, timestamp and url |
| `Jssdk.SignatureDefaultsResolved` | src/Applications/Jssdk/Client.php:102-111 | with every argument omitted, the result carries the page URL, the random nonce and the current time, and the signature is the hash of the template over them. The timestamp is always non-empty once converted to a string. The nonce is non-empty whenever the random nonce has its 10 characters, and the url whenever the URL `getUrl()` gives is truthy; with no stored URL and an empty current URL, the url signed is empty |
| `Jssdk.SignatureTwiceFetchesAtMostOnce` | src/Applications/Jssdk/Client.php:111 | after one successful `signature()`, a second one makes no fetch and changes no state. It signs with the same ticket as the first |
| `Jssdk.PackageFields` | src/Applications/Jssdk/Client.php:106-112 | the signature array has the keys `appId`, `nonceStr`, `timestamp`, `url`, `signature`, in that order, each once. `appId` and `signature` hold the given strings, and `nonceStr`, `timestamp` and `url` hold the given values |
| `Jssdk.ConfigHead` | src/Applications/Jssdk/Client.php:51 | `compact('debug', 'beta', 'jsApiList')` has those three keys in that order |
| `Jssdk.Config` | src/Applications/Jssdk/Client.php:49-54 | state and failure are those of an argument-less `signature()`. On success the result is the three page settings followed by the five signature fields. It is JSON-tagged exactly when `json` is truthy |
| `Jssdk.GetConfigArray` | src/Applications/Jssdk/Client.php:65-68 | equals `config(…, false)` with `json` the value `false`: the same state, the same failure, and the same fields in array form |
| `Jssdk.ConfigDefaults` | src/Applications/Jssdk/Client.php:49 | `config($apis)` with every default returns the JSON-tagged form, with `debug` and `beta` false and `jsApiList` the given list |
| `Jssdk.ConfigMergeIsConcat` | src/Applications/Jssdk/Client.php:51 | the page settings and the signature fields share no key, so `array_merge` joins them in order |
| `Jssdk.ConfigArrayFields` | src/Applications/Jssdk/Client.php:51 | the configuration array has exactly the eight keys `debug, beta, jsApiList, appId, nonceStr, timestamp, url, signature`, in that order. `debug`, `beta` and `jsApiList` are passed through unchanged, `appId` is the configured app id, `nonceStr` the random nonce, `timestamp` the current time, `url` the URL `getUrl()` gives, and `signature` the field an argument-less `signature()` computes |
| `Jssdk.ConfigFieldsShape` | src/Applications/Jssdk/Client.php:51 | the concatenated settings and signature arrays have the eight keys in order, and each of them carries the value it was given |
| `Php.FalsyValues` | src/Applications/Jssdk/Client.php:102-104 | the truthiness `?:` and `if ($this->url)` test (`Php.Truthy`) rejects exactly `null`, `false`, `0`, `""` and `"0"` |
| `Php.Elvis` | src/Applications/Jssdk/Client.php:102-104 | `a ?: b` is `a` when `a` is truthy and `b` otherwise. The result is truthy if and only if one of them is |
| `Php.ToString` | src/Applications/Jssdk/Client.php:127 | interpolating an integer gives a string that reads back as that integer, and only a string argument can put a `&` into the template |
| `Php.Digits` | src/Applications/Jssdk/Client.php:127 | an interpolated non-negative integer is a non-empty string of decimal digits. It has a leading `0` only for zero |
| `Php.IntToStringRoundTrip` | src/Applications/Jssdk/Client.php:127 | the decimal string an interpolated integer becomes reads back as that integer |
| `Php.IntToStringInjective` | src/Applications/Jssdk/Client.php:127 | distinct integer timestamps interpolate to distinct strings |
| `Php.ToStringPreservesTruthiness` | src/Applications/Jssdk/Client.php:102-104 | a scalar is truthy if and only if its interpolated string is |
| `Php.TruthyToStringNonEmpty` | src/Applications/Jssdk/Client.php:102-104 | a truthy argument never interpolates to the empty string |
| `Canonical.Parse` | src/Applications/Jssdk/Client.php:127 | whatever the parser accepts is the template over the fields it returns, with no `&` in the first three |
| `Canonical.ParseSignString` | src/Applications/Jssdk/Client.php:127 | specifies the template `Canonical.SignString`: the template over `&`-free ticket, nonce and timestamp parses back to exactly its four fields |
| `Canonical.SignStringInjective` | src/Applications/Jssdk/Client.php:127 | `Canonical.SignString` over such fields is injective: equal signing strings mean equal fields, and conversely |
| `Canonical.SeparabilityNeeded` | src/Applications/Jssdk/Client.php:127 | since the fields are not escaped, two different field sets can give the same signing string |
| `Canonical.SplitAt` | src/Applications/Jssdk/Client.php:127 | splits at the first separator: the two parts rebuild the string, and the first part has no separator |
| `Assoc.Put` | src/Applications/Jssdk/Client.php:51 | setting a string key overwrites it in place, or appends it if absent. Afterwards the key maps to the new value and every other key keeps its value |
| `Assoc.Merge` | src/Applications/Jssdk/Client.php:51 | `array_merge`: a key of the second array takes the second array's value; every other key keeps the first array's value; merging into a well-formed array keeps every key unique |
| `Assoc.MergeKeyOrder` | src/Applications/Jssdk/Client.php:51 | `array_merge` keeps the first array's keys in place and appends the second array's new keys in their order |
| `Assoc.MergeDisjoint` | src/Applications/Jssdk/Client.php:51 | with no shared key, `array_merge` is the first array's pairs followed by the second's, in order |

## Left out

- HTTP transport (`httpGet`, `BaseClient`): it is I/O and not part of this model. The endpoint is the oracle `Env.remote`, and any failure it reports is one `Failed(reason)` that propagates. Malformed responses, retries and timeouts are not modelled.
- Cache backend internals (`InteractsWithCache`): not part of this model. The cache is a map from key to ticket and TTL, with `has`, `get` and `set`. Wall-clock expiry is the separate transition `Expire`. Concurrent processes sharing the cache are not modelled; this includes an entry that expires between `has` and `get`.
- TTL: stored as exactly `expires_in - 500`, also when that is zero or negative, because the code does not clamp it. Whether a non-positive TTL empties the entry at once is up to the backend, represented by `Expire`.
- SHA-1 internals: the hash is the uninterpreted `Env.sha1`.
- `Str::quickRandom(10)`, `time()` and `Support\current_url()` are nondeterministic or read the environment. They are parameters (`randomNonce`, `now`) or the field `Env.currentUrl`.
- Config: the branch taken for a truthy `json` returns the configuration array tagged `Encoded`, not the JSON text, because `json_encode` is a library serialiser.
- PHP floats and arrays passed as `url`, `nonce` or `timestamp`, and 64-bit overflow of PHP integers: values are unbounded integers, strings, booleans or null.
- `array_merge` renumbering of integer keys: every array here has string keys only.
- `setUrl` returning `$this` for chaining: `SetUrl` returns the updated client value.

=== FILE: assoc.dfy ===
/**
 * PHP arrays with string keys, as ordered lists of key/value pairs, and
 * `array_merge` over them: a key of the second array overwrites the value
 * of an equal key in the first in place, and any other key is appended.
 */
module Assoc {
  import opened Wrappers

  type Array<V> = seq<(string, V)>

  function Keys<V>(a: Array<V>): (ks: seq<string>)
    ensures |ks| == |a|
  {
    if |a| == 0 then [] else [a[0].0] + Keys(a[1..])
  }

  /** No key occurs twice, as in every PHP array. */
  predicate UniqueKeys<V>(a: Array<V>) {
    |a| == 0 || (a[0].0 !in Keys(a[1..]) && UniqueKeys(a[1..]))
  }

  lemma {:induction false} KeysAt<V>(a: Array<V>)
    ensures forall i :: 0 <= i < |a| ==> Keys(a)[i] == a[i].0
    decreases |a|
  {
    if |a| > 0 {
      KeysAt(a[1..]);
    }
  }

  /** Pairwise distinct keys make an array well formed. */
  lemma {:induction false} DistinctKeysAreUnique<V>(a: Array<V>)
    requires forall i, j :: 0 <= i < j < |a| ==> a[i].0 != a[j].0
    ensures UniqueKeys(a)
    decreases |a|
  {
    if |a| > 0 {
      KeysAt(a[1..]);
      assert forall j :: 0 <= j < |a| - 1 ==> a[1..][j].0 == a[j + 1].0;
      DistinctKeysAreUnique(a[1..]);
    }
  }

  /** `$a[$k]` when `$k` is set. */
  function Find<V>(a: Array<V>, k: string): (r: Option<V>)
    ensures r.None? <==> k !in Keys(a)
    ensures r.Some? ==> (k, r.value) in a
  {
    if |a| == 0 then None
    else if a[0].0 == k then Some(a[0].1)
    else Find(a[1..], k)
  }

  /** In a well-formed array, looking up the key at position `i` gives the value at position `i`. */
  lemma {:induction false} FindUnique<V>(a: Array<V>, i: nat)
    requires UniqueKeys(a) && i < |a|
    ensures Find(a, a[i].0) == Some(a[i].1)
    decreases i
  {
    if i > 0 {
      KeysAt(a[1..]);
      assert a[1..][i - 1] == a[i];
      assert Keys(a[1..])[i - 1] == a[i].0;
      FindUnique(a[1..], i - 1);
    }
  }

  /** Looking up in two joined arrays finds the first array's value before the second's. */
  lemma {:induction false} FindAppend<V>(a: Array<V>, b: Array<V>, k: string)
    ensures Find(a + b, k) == if k in Keys(a) then Find(a, k) else Find(b, k)
    decreases |a|
  {
    if |a| == 0 {
      assert a + b == b;
    } else {
      assert (a + b)[0] == a[0];
      assert (a + b)[1..] == a[1..] + b;
      assert Keys(a) == [a[0].0] + Keys(a[1..]);
      FindAppend(a[1..], b, k);
    }
  }

  /** `$a[$k] = $v`: overwrite in place when `$k` is set, append otherwise. */
  function Put<V>(a: Array<V>, k: string, v: V): (r: Array<V>)
    ensures Keys(r) == if k in Keys(a) then Keys(a) else Keys(a) + [k]
    ensures Find(r, k) == Some(v)
    ensures forall k' :: k' != k ==> Find(r, k') == Find(a, k')
  {
    if |a| == 0 then [(k, v)]
    else if a[0].0 == k then [(k, v)] + a[1..]
    else [a[0]] + Put(a[1..], k, v)
  }

  lemma {:induction false} PutKeepsUniqueKeys<V>(a: Array<V>, k: string, v: V)
    ensures UniqueKeys(a) ==> UniqueKeys(Put(a, k, v))
    decreases |a|
  {
    if |a| > 0 && a[0].0 != k {
      PutKeepsUniqueKeys(a[1..], k, v);
    }
  }

  /** `array_merge($a, $b)` for arrays with string keys. */
  function Merge<V>(a: Array<V>, b: Array<V>): (r: Array<V>)
    requires UniqueKeys(b)
    ensures forall k :: Find(r, k) == (if k in Keys(b) then Find(b, k) else Find(a, k))
    ensures UniqueKeys(a) ==> UniqueKeys(r)
    decreases |b|
  {
    if |b| == 0 then a
    else
      PutKeepsUniqueKeys(a, b[0].0, b[0].1);
      Merge(Put(a, b[0].0, b[0].1), b[1..])
  }

  /** The keys of `ks` that do not occur in `drop`, in their order in `ks`. */
  function Without(ks: seq<string>, drop: seq<string>): (r: seq<string>)
    ensures forall k :: k in r <==> k in ks && k !in drop
  {
    if |ks| == 0 then []
    else if ks[0] in drop then Without(ks[1..], drop)
    else [ks[0]] + Without(ks[1..], drop)
  }

  lemma {:induction false} WithoutIgnoresAbsent(ks: seq<string>, drop: seq<string>, x: string)
    requires x !in ks
    ensures Without(ks, drop + [x]) == Without(ks, drop)
    decreases |ks|
  {
    if |ks| > 0 {
      WithoutIgnoresAbsent(ks[1..], drop, x);
    }
  }

  /**
   * `array_merge` keeps the first array's keys in place and appends the
   * second array's new keys in their order.
   */
  lemma {:induction false} MergeKeyOrder<V>(a: Array<V>, b: Array<V>)
    requires UniqueKeys(b)
    ensures Keys(Merge(a, b)) == Keys(a) + Without(Keys(b), Keys(a))
    decreases |b|
  {
    if |b| > 0 {
      var k, v := b[0].0, b[0].1;
      assert Keys(b) == [k] + Keys(b[1..]);
      MergeKeyOrder(Put(a, k, v), b[1..]);
      if k !in Keys(a) {
        WithoutIgnoresAbsent(Keys(b[1..]), Keys(a), k);
      }
    }
  }

  predicate Disjoint<V>(a: Array<V>, b: Array<V>) {
    forall k :: k in Keys(a) ==> k !in Keys(b)
  }

  lemma {:induction false} PutAbsentAppends<V>(a: Array<V>, k: string, v: V)
    requires k !in Keys(a)
    ensures Put(a, k, v) == a + [(k, v)]
    decreases |a|
  {
    if |a| > 0 {
      assert Keys(a) == [a[0].0] + Keys(a[1..]);
      assert a[0].0 != k && k !in Keys(a[1..]);
      assert Put(a, k, v) == [a[0]] + Put(a[1..], k, v);
      PutAbsentAppends(a[1..], k, v);
      assert [a[0]] + (a[1..] + [(k, v)]) == a + [(k, v)];
    }
  }

  lemma {:induction false} KeysAppend<V>(a: Array<V>, b: Array<V>)
    ensures Keys(a + b) == Keys(a) + Keys(b)
    decreases |a|
  {
    if |a| > 0 {
      assert (a + b)[0] == a[0];
      assert (a + b)[1..] == a[1..] + b;
      KeysAppend(a[1..], b);
      assert Keys(a + b) == [a[0].0] + Keys(a[1..] + b);
    } else {
      assert a + b == b;
    }
  }

  /** Moving the first pair of `b` to the end of `a` keeps the two disjoint. */
  lemma ShiftKeepsDisjoint<V>(a: Array<V>, b: Array<V>)
    requires |b| > 0 && UniqueKeys(b) && Disjoint(a, b)
    ensures Disjoint(a + [b[0]], b[1..])
  {
    var k := b[0].0;
    KeysAppend(a, [b[0]]);
    assert Keys([b[0]]) == [k];
    assert Keys(b) == [k] + Keys(b[1..]);
    forall k' | k' in Keys(a + [b[0]]) ensures k' !in Keys(b[1..]) {
      if k' != k {
        assert k' in Keys(a);
      }
    }
  }

  lemma ShiftConcat<T>(a: seq<T>, b: seq<T>)
    requires |b| > 0
    ensures a + [b[0]] + b[1..] == a + b
  {
    assert b == [b[0]] + b[1..];
  }

  /** When no key is shared, merging keeps the first array's pairs and then the second's, in order. */
  lemma {:induction false} MergeDisjoint<V>(a: Array<V>, b: Array<V>)
    requires UniqueKeys(b)
    requires Disjoint(a, b)
    ensures Merge(a, b) == a + b
    decreases |b|
  {
    if |b| > 0 {
      var k, v := b[0].0, b[0].1;
      var a' := a + [b[0]];
      assert Keys(b) == [k] + Keys(b[1..]);
      assert UniqueKeys(b[1..]);
      PutAbsentAppends(a, k, v);
      assert Merge(a, b) == Merge(a', b[1..]);
      ShiftKeepsDisjoint(a, b);
      MergeDisjoint(a', b[1..]);
      ShiftConcat(a, b);
    }
  }
}

=== FILE: canonical.dfy ===
/**
 * The string the JS-SDK signature is computed over:
 *   jsapi_ticket=<ticket>&noncestr=<nonce>&timestamp=<timestamp>&url=<url>
 * The fields appear in that order, joined by a literal `&`, and are not
 * escaped. A parser for the template is its partner: the template can be
 * read back whenever the first three fields contain no `&`.
 */
module Canonical {
  import opened Wrappers

  /** The four values the template binds, already converted to strings. */
  datatype Fields = Fields(ticket: string, nonce: string, timestamp: string, url: string)

  function SignString(f: Fields): string {
    "jsapi_ticket=" + f.ticket + "&noncestr=" + f.nonce + "&timestamp=" + f.timestamp + "&url=" + f.url
  }

  /** True when no field but the last contains the separator, so field boundaries are recoverable. */
  predicate Separable(f: Fields) {
    '&' !in f.ticket && '&' !in f.nonce && '&' !in f.timestamp
  }

  /** Splits `s` at the first occurrence of `c`. */
  function SplitAt(s: string, c: char): (r: Option<(string, string)>)
    ensures r.None? <==> c !in s
    ensures r.Some? ==> s == r.value.0 + [c] + r.value.1 && c !in r.value.0
  {
    if |s| == 0 then None
    else if s[0] == c then Some(([], s[1..]))
    else
      match SplitAt(s[1..], c)
      case None => None
      case Some((a, b)) => Some(([s[0]] + a, b))
  }

  /** The rest of `s` after the prefix `p`, if `s` starts with `p`. */
  function StripPrefix(p: string, s: string): (r: Option<string>)
    ensures r.Some? <==> p <= s
    ensures r.Some? ==> s == p + r.value
  {
    if p <= s then Some(s[|p|..]) else None
  }

  /** Reads the prefix `name` (such as `noncestr=`), then a field running up to the next `&`; returns the field and what follows the `&`. */
  function ParseField(name: string, s: string): (r: Option<(string, string)>)
    ensures r.Some? ==> s == name + (r.value.0 + (['&'] + r.value.1)) && '&' !in r.value.0
  {
    match StripPrefix(name, s)
    case None => None
    case Some(rest) => SplitAt(rest, '&')
  }

  /** The signing string with its concatenations grouped from the right, the order a parser reads them. */
  lemma SignStringNested(f: Fields)
    ensures SignString(f) ==
      "jsapi_ticket=" + (f.ticket + (['&'] + ("noncestr=" + (f.nonce + (['&'] + ("timestamp=" + (f.timestamp + (['&'] + ("url=" + f.url)))))))))
  {
  }

  /** Reads the four fields back out of a signing string. */
  function Parse(s: string): (r: Option<Fields>)
    ensures r.Some? ==> Separable(r.value) && SignString(r.value) == s
  {
    match ParseField("jsapi_ticket=", s)
    case None => None
    case Some((ticket, s1)) =>
      match ParseField("noncestr=", s1)
      case None => None
      case Some((nonce, s2)) =>
        match ParseField("timestamp=", s2)
        case None => None
        case Some((timestamp, s3)) =>
          match StripPrefix("url=", s3)
          case None => None
          case Some(url) =>
            var f := Fields(ticket, nonce, timestamp, url);
            SignStringNested(f);
            Some(f)
  }

  /** Splitting at `c` finds exactly the first occurrence. */
  lemma {:induction false} SplitAtFirst(a: string, b: string, c: char)
    requires c !in a
    ensures SplitAt(a + [c] + b, c) == Some((a, b))
    decreases |a|
  {
    var s := a + [c] + b;
    if |a| == 0 {
      assert s == [c] + b;
    } else {
      assert s[0] == a[0] != c;
      assert s[1..] == a[1..] + [c] + b;
      SplitAtFirst(a[1..], b, c);
      assert [a[0]] + a[1..] == a;
    }
  }

  lemma ParseFieldOf(name: string, field: string, rest: string)
    requires '&' !in field
    ensures ParseField(name, name + (field + (['&'] + rest))) == Some((field, rest))
  {
    var s := name + (field + (['&'] + rest));
    assert s[|name|..] == field + (['&'] + rest);
    assert field + (['&'] + rest) == field + ['&'] + rest;
    SplitAtFirst(field, rest, '&');
  }

  lemma ParseSignString(f: Fields)
    requires Separable(f)
    ensures Parse(SignString(f)) == Some(f)
  {
    var s3 := "url=" + f.url;
    var s2 := "timestamp=" + (f.timestamp + (['&'] + s3));
    var s1 := "noncestr=" + (f.nonce + (['&'] + s2));
    SignStringNested(f);
    ParseFieldOf("jsapi_ticket=", f.ticket, s1);
    ParseFieldOf("noncestr=", f.nonce, s2);
    ParseFieldOf("timestamp=", f.timestamp, s3);
    assert StripPrefix("url=", s3) == Some(f.url);
  }

  /** Over separable fields the template is injective: equal strings bind equal fields. */
  lemma SignStringInjective(f: Fields, g: Fields)
    requires Separable(f) && Separable(g)
    ensures SignString(f) == SignString(g) <==> f == g
  {
    ParseSignString(f);
    ParseSignString(g);
  }

  /** Without escaping, a `&` inside a field lets two different field sets produce one string. */
  lemma SeparabilityNeeded()
    ensures exists f: Fields, g: Fields :: f != g && SignString(f) == SignString(g)
  {
    var f := Fields("a&noncestr=b", "c", "1", "u");
    var g := Fields("a", "b&noncestr=c", "1", "u");
    assert "a&noncestr=b" + "&noncestr=" + "c" == "a" + "&noncestr=" + "b&noncestr=c";
    assert SignString(f) == SignString(g);
    assert f != g;
  }
}

=== FILE: jssdk_client.dfy ===
/**
 * The JS-SDK credential client: a jsapi ticket cached per application
 * under a namespaced key, the signature over the canonical template, the
 * page URL it signs, and the configuration record handed to the page.
 *
 * Everything the client delegates to code outside this model is a field
 * of `Env` (the application id, the current page URL, the remote ticket
 * endpoint and SHA-1) or a parameter of the operation that uses it (the
 * random nonce and the clock). The client's mutable state is a `Client`
 * value threaded through the operations.
 */
module Jssdk {
  import opened Wrappers
  import opened Php
  import Canonical
  import Assoc

  const TicketCachePrefix: string := "overtrue.wechat.jsapi_ticket."

  /** Seconds subtracted from the endpoint's declared lifetime before caching. */
  const ExpirySafetyMargin: int := 500

  /** A cached ticket with the time-to-live it was stored with. */
  datatype Entry = Entry(value: string, ttl: int)

  type Cache = map<string, Entry>

  /** What the remote `cgi-bin/ticket/getticket` endpoint answers. */
  datatype Response = Issued(ticket: string, expiresIn: int) | Failed(reason: string)

  /**
   * The collaborators: `remote(n)` is the answer to the n-th fetch,
   * `currentUrl` what the current-URL helper returns, `sha1` the hash.
   */
  datatype Env = Env(
    appId: string,
    currentUrl: string,
    remote: nat -> Response,
    sha1: string -> string)

  /** The client's state: the shared cache, the stored URL (initially null) and the number of remote fetches so far. */
  datatype Client = Client(cache: Cache, url: Value, fetches: nat)

  /** A fresh client over the shared cache: no URL stored yet and no fetch made. */
  function Init(cache: Cache): (c: Client)
    ensures c.cache == cache && c.fetches == 0
    ensures forall env: Env :: GetUrl(env, c) == Str(env.currentUrl)
  {
    Client(cache, Null, 0)
  }

  /** An operation's outcome together with the client state it leaves. */
  datatype Step<+T> = Step(result: Result<T, string>, client: Client)

  /** The five fields `signature()` returns. */
  datatype Package = Package(appId: string, nonceStr: Value, timestamp: Value, url: Value, signature: string)

  /** A value in the configuration array: a scalar, or the list of API names. */
  datatype Field = Scalar(v: Value) | Names(names: seq<string>)

  /** The configuration array, as an array or as its JSON encoding (the encoding itself is not modelled). */
  datatype ConfigOut = Structured(fields: Assoc.Array<Field>) | Encoded(fields: Assoc.Array<Field>)

  // ---------------------------------------------------------------------
  // Ticket cache

  function CacheKey(appId: string): (k: string)
    ensures |k| == |TicketCachePrefix| + |appId|
    ensures k[..|TicketCachePrefix|] == TicketCachePrefix
    ensures k[|TicketCachePrefix|..] == appId
  {
    TicketCachePrefix + appId
  }

  /** Distinct applications never share a cache entry. */
  lemma CacheKeyInjective(a: string, b: string)
    ensures CacheKey(a) == CacheKey(b) <==> a == b
  {
    if CacheKey(a) == CacheKey(b) {
      assert a == CacheKey(a)[|TicketCachePrefix|..];
    }
  }

  /** True when `ticket(refresh)` has to ask the remote endpoint. */
  predicate MustFetch(env: Env, c: Client, refresh: bool) {
    refresh || CacheKey(env.appId) !in c.cache
  }

  /** `ticket($refresh = false)`. */
  function Ticket(env: Env, c: Client, refresh: bool := false): (s: Step<string>)
    ensures s.client.url == c.url
    ensures s.client.fetches == c.fetches + (if MustFetch(env, c, refresh) then 1 else 0)
    ensures !MustFetch(env, c, refresh) ==>
      s.result == Success(c.cache[CacheKey(env.appId)].value) && s.client.cache == c.cache
    ensures MustFetch(env, c, refresh) && env.remote(c.fetches).Failed? ==>
      s.result == Failure(env.remote(c.fetches).reason) && s.client.cache == c.cache
    ensures MustFetch(env, c, refresh) && env.remote(c.fetches).Issued? ==>
      var resp := env.remote(c.fetches);
      var key := CacheKey(env.appId);
      && s.result == Success(resp.ticket)
      && key in s.client.cache
      && s.client.cache[key] == Entry(resp.ticket, resp.expiresIn - 500)
      && (forall k :: k != key ==> (k in s.client.cache <==> k in c.cache))
      && (forall k :: k != key && k in c.cache ==> s.client.cache[k] == c.cache[k])
  {
    var key := CacheKey(env.appId);
    if !refresh && key in c.cache then
      Step(Success(c.cache[key].value), c)
    else
      var c' := c.(fetches := c.fetches + 1);
      match env.remote(c.fetches)
      case Failed(reason) => Step(Failure(reason), c')
      case Issued(ticket, expiresIn) =>
        Step(Success(ticket), c'.(cache := c.cache[key := Entry(ticket, expiresIn - ExpirySafetyMargin)]))
  }

  /** The cache backend dropping an entry whose time-to-live has run out. */
  function Expire(c: Client, key: string): (c': Client)
    ensures key !in c'.cache
    ensures forall k :: k != key ==> (k in c'.cache <==> k in c.cache)
    ensures forall k :: k != key && k in c.cache ==> c'.cache[k] == c.cache[k]
    ensures c'.url == c.url && c'.fetches == c.fetches
  {
    c.(cache := c.cache - {key})
  }

  /** Two non-forced calls with no expiry in between fetch at most once and agree. */
  lemma TicketTwiceFetchesAtMostOnce(env: Env, c: Client)
    requires Ticket(env, c, false).result.Success?
    ensures var first := Ticket(env, c, false);
            var second := Ticket(env, first.client, false);
            && second.client.fetches <= c.fetches + 1
            && second.result == first.result
            && second.client == first.client
  {
  }

  /** After the entry expires, a non-forced call fetches again. */
  lemma TicketAfterExpiryFetches(env: Env, c: Client)
    ensures var c' := Expire(c, CacheKey(env.appId));
            Ticket(env, c', false).client.fetches == c.fetches + 1
  {
  }

  // ---------------------------------------------------------------------
  // Signature

  /** The four values as string interpolation inserts them into the template. */
  function SignFields(ticket: Value, nonce: Value, timestamp: Value, url: Value): (f: Canonical.Fields)
    ensures '&' !in ToString(ticket) && '&' !in ToString(nonce) && timestamp.Int? ==> Canonical.Separable(f)
    ensures !ticket.Str? && !nonce.Str? && !timestamp.Str? ==> Canonical.Separable(f)
  {
    Canonical.Fields(ToString(ticket), ToString(nonce), ToString(timestamp), ToString(url))
  }

  /**
   * `getSignature($ticket, $nonce, $timestamp, $url)`: the hash of the
   * template over the four interpolated fields, whatever they hold. When the
   * first three hold no `&`, the template parser reads that string back as
   * exactly those fields.
   */
  function GetSignature(env: Env, ticket: Value, nonce: Value, timestamp: Value, url: Value): (r: string)
    ensures r == env.sha1(Canonical.SignString(SignFields(ticket, nonce, timestamp, url)))
    ensures Canonical.Separable(SignFields(ticket, nonce, timestamp, url)) ==>
      exists s :: r == env.sha1(s) && Canonical.Parse(s) == Some(SignFields(ticket, nonce, timestamp, url))
  {
    var f := SignFields(ticket, nonce, timestamp, url);
    var s := Canonical.SignString(f);
    if Canonical.Separable(f) then
      Canonical.ParseSignString(f);
      env.sha1(s)
    else
      env.sha1(s)
  }

  ghost predicate InjectiveHash(h: string -> string) {
    forall x, y :: h(x) == h(y) ==> x == y
  }

  /**
   * With a collision-free hash, two signatures agree exactly when the four
   * interpolated fields agree, as long as none of the first three holds `&`.
   */
  lemma SignatureBindsFields(env: Env, t1: Value, n1: Value, ts1: Value, u1: Value,
                             t2: Value, n2: Value, ts2: Value, u2: Value)
    requires InjectiveHash(env.sha1)
    requires Canonical.Separable(SignFields(t1, n1, ts1, u1))
    requires Canonical.Separable(SignFields(t2, n2, ts2, u2))
    ensures GetSignature(env, t1, n1, ts1, u1) == GetSignature(env, t2, n2, ts2, u2)
        <==> SignFields(t1, n1, ts1, u1) == SignFields(t2, n2, ts2, u2)
  {
    Canonical.SignStringInjective(SignFields(t1, n1, ts1, u1), SignFields(t2, n2, ts2, u2));
  }

  /** For ticket "abc123", nonce "noncestr1", timestamp 10^9 and a page URL, the hashed string is the literal template with the timestamp in decimal. */
  lemma GetSignatureExample(env: Env)
    ensures GetSignature(env, Str("abc123"), Str("noncestr1"), Int(1000000000), Str("http://example.com/page"))
         == env.sha1("jsapi_ticket=abc123&noncestr=noncestr1&timestamp=1000000000&url=http://example.com/page")
  {
    var f := Canonical.Fields("abc123", "noncestr1", "1000000000", "http://example.com/page");
    ExampleFields();
    ExampleSignString();
    assert GetSignature(env, Str("abc123"), Str("noncestr1"), Int(1000000000), Str("http://example.com/page"))
        == env.sha1(Canonical.SignString(f));
  }

  lemma ExampleFields()
    ensures SignFields(Str("abc123"), Str("noncestr1"), Int(1000000000), Str("http://example.com/page"))
         == Canonical.Fields("abc123", "noncestr1", "1000000000", "http://example.com/page")
  {
    DecimalOfBillion();
  }

  lemma ExampleSignString()
    ensures Canonical.SignString(Canonical.Fields("abc123", "noncestr1", "1000000000", "http://example.com/page"))
         == "jsapi_ticket=abc123&noncestr=noncestr1&timestamp=1000000000&url=http://example.com/page"
  {
    ExampleTicketAndNonce();
    ExampleTimestamp();
    ExampleUrl();
  }

  lemma ExampleTicketAndNonce()
    ensures "jsapi_ticket=" + "abc123" + "&noncestr=" + "noncestr1" == "jsapi_ticket=abc123&noncestr=noncestr1"
  {
  }

  lemma ExampleTimestamp()
    ensures "jsapi_ticket=abc123&noncestr=noncestr1" + "&timestamp=" + "1000000000"
         == "jsapi_ticket=abc123&noncestr=noncestr1&timestamp=1000000000"
  {
  }

  lemma ExampleUrl()
    ensures "jsapi_ticket=abc123&noncestr=noncestr1&timestamp=1000000000" + "&url=" + "http://example.com/page"
         == "jsapi_ticket=abc123&noncestr=noncestr1&timestamp=1000000000&url=http://example.com/page"
  {
    assert "jsapi_ticket=abc123&noncestr=noncestr1&timestamp=1000000000" + "&url="
        == "jsapi_ticket=abc123&noncestr=noncestr1&timestamp=1000000000&url=";
  }

  lemma DecimalOfBillion()
    ensures IntToString(1000000000) == "1000000000"
  {
    assert Digits(10) == "10";
    assert Digits(100) == "100";
    assert Digits(1000) == "1000";
    assert Digits(10000) == "10000";
    assert Digits(100000) == "100000";
    assert Digits(1000000) == "1000000";
    assert Digits(10000000) == "10000000";
    assert Digits(100000000) == "100000000";
  }

  // ---------------------------------------------------------------------
  // URL

  /** `setUrl($url)`. */
  function SetUrl(c: Client, url: Value): (c': Client)
    ensures c'.url == url
    ensures c'.cache == c.cache && c'.fetches == c.fetches
  {
    c.(url := url)
  }

  /** `getUrl()`: the stored URL when truthy, otherwise the current page URL. */
  function GetUrl(env: Env, c: Client): (u: Value)
    ensures u == c.url || u == Str(env.currentUrl)
    ensures Truthy(c.url) ==> u == c.url
    ensures !Truthy(c.url) ==> u == Str(env.currentUrl)
  {
    if Truthy(c.url) then c.url else Str(env.currentUrl)
  }

  lemma SetUrlThenGetUrl(env: Env, c: Client, url: Value)
    ensures Truthy(url) ==> GetUrl(env, SetUrl(c, url)) == url
    ensures !Truthy(url) ==> GetUrl(env, SetUrl(c, url)) == Str(env.currentUrl)
  {
  }

  // ---------------------------------------------------------------------
  // Signature package and configuration

  /**
   * `signature($url = null, $nonce = null, $timestamp = null)`: falsy arguments fall back to the
   * page URL, `randomNonce` (what `Str::quickRandom(10)` returned) and `now`
   * (what `time()` returned); the ticket comes from a non-forced `ticket()`.
   */
  function Signature(env: Env, c: Client, randomNonce: string, now: int,
                     url: Value := Null, nonce: Value := Null, timestamp: Value := Null): (s: Step<Package>)
    ensures s.client == Ticket(env, c, false).client
    ensures s.result.Success? <==> Ticket(env, c, false).result.Success?
    ensures s.result.Failure? ==> s.result.error == Ticket(env, c, false).result.error
    ensures s.result.Success? ==>
      var p := s.result.value;
      && p.appId == env.appId
      && (Truthy(url) ==> p.url == url)
      && (!Truthy(url) ==> p.url == GetUrl(env, c))
      && (Truthy(nonce) ==> p.nonceStr == nonce)
      && (!Truthy(nonce) ==> p.nonceStr == Str(randomNonce))
      && (Truthy(timestamp) ==> p.timestamp == timestamp)
      && (!Truthy(timestamp) ==> p.timestamp == Int(now))
      && p.signature == GetSignature(env, Str(Ticket(env, c, false).result.value), p.nonceStr, p.timestamp, p.url)
  {
    var url' := Elvis(url, GetUrl(env, c));
    var nonce' := Elvis(nonce, Str(randomNonce));
    var timestamp' := Elvis(timestamp, Int(now));
    var t := Ticket(env, c);
    match t.result
    case Failure(e) => Step(Failure(e), t.client)
    case Success(ticket) =>
      Step(Success(Package(env.appId, nonce', timestamp', url',
                           GetSignature(env, Str(ticket), nonce', timestamp', url'))), t.client)
  }

  /** The package as the PHP array `signature()` returns, in its key order. */
  function PackageFields(p: Package): (a: Assoc.Array<Field>)
    ensures Assoc.Keys(a) == ["appId", "nonceStr", "timestamp", "url", "signature"]
    ensures Assoc.UniqueKeys(a)
    ensures Assoc.Find(a, "appId") == Some(Scalar(Str(p.appId)))
    ensures Assoc.Find(a, "nonceStr") == Some(Scalar(p.nonceStr))
    ensures Assoc.Find(a, "timestamp") == Some(Scalar(p.timestamp))
    ensures Assoc.Find(a, "url") == Some(Scalar(p.url))
    ensures Assoc.Find(a, "signature") == Some(Scalar(Str(p.signature)))
  {
    var a := [("appId", Scalar(Str(p.appId))), ("nonceStr", Scalar(p.nonceStr)), ("timestamp", Scalar(p.timestamp)),
     ("url", Scalar(p.url)), ("signature", Scalar(Str(p.signature)))];
    PackageFieldsKeys(p, a);
    PackageFieldsLookup(p, a);
    a
  }

  lemma PackageFieldsKeys(p: Package, a: Assoc.Array<Field>)
    requires a == [("appId", Scalar(Str(p.appId))), ("nonceStr", Scalar(p.nonceStr)), ("timestamp", Scalar(p.timestamp)),
                   ("url", Scalar(p.url)), ("signature", Scalar(Str(p.signature)))]
    ensures Assoc.Keys(a) == ["appId", "nonceStr", "timestamp", "url", "signature"]
    ensures Assoc.UniqueKeys(a)
  {
    Assoc.KeysAt(a);
    Assoc.DistinctKeysAreUnique(a);
  }

  lemma PackageFieldsLookup(p: Package, a: Assoc.Array<Field>)
    requires a == [("appId", Scalar(Str(p.appId))), ("nonceStr", Scalar(p.nonceStr)), ("timestamp", Scalar(p.timestamp)),
                   ("url", Scalar(p.url)), ("signature", Scalar(Str(p.signature)))]
    requires Assoc.UniqueKeys(a)
    ensures Assoc.Find(a, "appId") == Some(Scalar(Str(p.appId)))
    ensures Assoc.Find(a, "nonceStr") == Some(Scalar(p.nonceStr))
    ensures Assoc.Find(a, "timestamp") == Some(Scalar(p.timestamp))
    ensures Assoc.Find(a, "url") == Some(Scalar(p.url))
    ensures Assoc.Find(a, "signature") == Some(Scalar(Str(p.signature)))
  {
    Assoc.FindUnique(a, 0);
    Assoc.FindUnique(a, 1);
    Assoc.FindUnique(a, 2);
    Assoc.FindUnique(a, 3);
    Assoc.FindUnique(a, 4);
  }

  /** `compact('debug', 'beta', 'jsApiList')`. */
  function ConfigHead(apis: seq<string>, debug: Value, beta: Value): (a: Assoc.Array<Field>)
    ensures Assoc.Keys(a) == ["debug", "beta", "jsApiList"]
  {
    var a := [("debug", Scalar(debug)), ("beta", Scalar(beta)), ("jsApiList", Names(apis))];
    Assoc.KeysAt(a);
    a
  }

  /**
   * `config($jsApiList, $debug = false, $beta = false, $json = true)`: the three page settings
   * followed by the five fields of an argument-less `signature()` call.
   */
  function Config(env: Env, c: Client, randomNonce: string, now: int,
                  apis: seq<string>, debug: Value := Bool(false), beta: Value := Bool(false), json: Value := Bool(true))
    : (s: Step<ConfigOut>)
    ensures var sg := Signature(env, c, randomNonce, now);
      && s.client == sg.client
      && (s.result.Success? <==> sg.result.Success?)
      && (s.result.Failure? ==> s.result.error == sg.result.error)
      && (s.result.Success? ==>
            && (s.result.value.Encoded? <==> Truthy(json))
            && s.result.value.fields == ConfigHead(apis, debug, beta) + PackageFields(sg.result.value))
  {
    var sg := Signature(env, c, randomNonce, now);
    match sg.result
    case Failure(e) => Step(Failure(e), sg.client)
    case Success(p) =>
      ConfigMergeIsConcat(apis, debug, beta, p);
      var fields := Assoc.Merge(ConfigHead(apis, debug, beta), PackageFields(p));
      Step(Success(if Truthy(json) then Encoded(fields) else Structured(fields)), sg.client)
  }

  /** The page settings and the signature fields share no key, so `array_merge` just joins them. */
  lemma ConfigMergeIsConcat(apis: seq<string>, debug: Value, beta: Value, p: Package)
    ensures Assoc.Merge(ConfigHead(apis, debug, beta), PackageFields(p))
         == ConfigHead(apis, debug, beta) + PackageFields(p)
  {
    var head := ConfigHead(apis, debug, beta);
    var tail := PackageFields(p);
    assert Assoc.Keys(head) == ["debug", "beta", "jsApiList"];
    assert Assoc.Keys(tail) == ["appId", "nonceStr", "timestamp", "url", "signature"];
    assert Assoc.Disjoint(head, tail);
    Assoc.MergeDisjoint(head, tail);
  }

  /** `getConfigArray($APIs, $debug = false, $beta = false)`: the array form of `config`. */
  function GetConfigArray(env: Env, c: Client, randomNonce: string, now: int,
                          apis: seq<string>, debug: Value := Bool(false), beta: Value := Bool(false))
    : (s: Step<Assoc.Array<Field>>)
    ensures var cf := Config(env, c, randomNonce, now, apis, debug, beta, Bool(false));
      && s.client == cf.client
      && (s.result.Success? <==> cf.result.Success?)
      && (s.result.Failure? ==> s.result.error == cf.result.error)
      && (s.result.Success? ==> cf.result.value == Structured(s.result.value))
  {
    var cf := Config(env, c, randomNonce, now, apis, debug, beta, Bool(false));
    match cf.result
    case Failure(e) => Step(Failure(e), cf.client)
    case Success(out) => Step(Success(out.fields), cf.client)
  }

  /** Omitted arguments resolve to non-empty defaults, and the signature is taken over those defaults. */
  lemma SignatureDefaultsResolved(env: Env, c: Client, randomNonce: string, now: int)
    requires Signature(env, c, randomNonce, now).result.Success?
    ensures var p := Signature(env, c, randomNonce, now).result.value;
      var ticket := Ticket(env, c, false).result.value;
      && p.url == GetUrl(env, c) && p.nonceStr == Str(randomNonce) && p.timestamp == Int(now)
      && (Truthy(GetUrl(env, c)) ==> |ToString(p.url)| > 0)
      && (|randomNonce| == 10 ==> |ToString(p.nonceStr)| > 0)
      && |ToString(p.timestamp)| > 0
      && p.signature == env.sha1(Canonical.SignString(
           Canonical.Fields(ticket, randomNonce, IntToString(now), ToString(GetUrl(env, c)))))
  {
    if Truthy(GetUrl(env, c)) {
      TruthyToStringNonEmpty(GetUrl(env, c));
    }
  }

  /** A second signature right after a successful one reuses the cached ticket: no further fetch, no state change. */
  lemma SignatureTwiceFetchesAtMostOnce(env: Env, c: Client,
                                        url1: Value, nonce1: Value, ts1: Value, random1: string, now1: int,
                                        url2: Value, nonce2: Value, ts2: Value, random2: string, now2: int)
    requires Signature(env, c, random1, now1, url1, nonce1, ts1).result.Success?
    ensures var s1 := Signature(env, c, random1, now1, url1, nonce1, ts1);
      var s2 := Signature(env, s1.client, random2, now2, url2, nonce2, ts2);
      var p2 := s2.result.value;
      && s1.client.fetches <= c.fetches + 1
      && s2.client == s1.client
      && s2.result.Success?
      && p2.signature == GetSignature(env, Str(Ticket(env, c, false).result.value), p2.nonceStr, p2.timestamp, p2.url)
  {
    TicketTwiceFetchesAtMostOnce(env, c);
  }

  /** `config($apis)` with every default: JSON output, `debug` and `beta` false. */
  lemma ConfigDefaults(env: Env, c: Client, randomNonce: string, now: int, apis: seq<string>)
    requires Ticket(env, c, false).result.Success?
    ensures var out := Config(env, c, randomNonce, now, apis).result.value;
      && out.Encoded?
      && out.fields[..3] == [("debug", Scalar(Bool(false))), ("beta", Scalar(Bool(false))), ("jsApiList", Names(apis))]
  {
  }

  /** The configuration array holds the three page settings and then the signature fields, under these keys. */
  lemma ConfigArrayFields(env: Env, c: Client, apis: seq<string>, debug: Value, beta: Value,
                          randomNonce: string, now: int)
    requires Ticket(env, c, false).result.Success?
    ensures var a := GetConfigArray(env, c, randomNonce, now, apis, debug, beta).result.value;
      && Assoc.Keys(a) == ["debug", "beta", "jsApiList", "appId", "nonceStr", "timestamp", "url", "signature"]
      && Assoc.Find(a, "debug") == Some(Scalar(debug))
      && Assoc.Find(a, "beta") == Some(Scalar(beta))
      && Assoc.Find(a, "jsApiList") == Some(Names(apis))
      && Assoc.Find(a, "appId") == Some(Scalar(Str(env.appId)))
      && Assoc.Find(a, "nonceStr") == Some(Scalar(Str(randomNonce)))
      && Assoc.Find(a, "timestamp") == Some(Scalar(Int(now)))
      && Assoc.Find(a, "url") == Some(Scalar(GetUrl(env, c)))
      && Assoc.Find(a, "signature") == Some(Scalar(Str(Signature(env, c, randomNonce, now).result.value.signature)))
  {
    var p := Signature(env, c, randomNonce, now).result.value;
    ConfigFieldsShape(apis, debug, beta, p);
  }

  lemma ConfigFieldsShape(apis: seq<string>, debug: Value, beta: Value, p: Package)
    ensures var a := ConfigHead(apis, debug, beta) + PackageFields(p);
      && Assoc.Keys(a) == ["debug", "beta", "jsApiList", "appId", "nonceStr", "timestamp", "url", "signature"]
      && Assoc.Find(a, "debug") == Some(Scalar(debug))
      && Assoc.Find(a, "beta") == Some(Scalar(beta))
      && Assoc.Find(a, "jsApiList") == Some(Names(apis))
      && Assoc.Find(a, "appId") == Some(Scalar(Str(p.appId)))
      && Assoc.Find(a, "nonceStr") == Some(Scalar(p.nonceStr))
      && Assoc.Find(a, "timestamp") == Some(Scalar(p.timestamp))
      && Assoc.Find(a, "url") == Some(Scalar(p.url))
      && Assoc.Find(a, "signature") == Some(Scalar(Str(p.signature)))
  {
    ConfigFieldsKeys(apis, debug, beta, p);
    ConfigFieldsHeadLookup(apis, debug, beta, p);
    ConfigFieldsTailLookup(apis, debug, beta, p);
  }

  lemma ConfigFieldsKeys(apis: seq<string>, debug: Value, beta: Value, p: Package)
    ensures Assoc.Keys(ConfigHead(apis, debug, beta) + PackageFields(p))
         == ["debug", "beta", "jsApiList", "appId", "nonceStr", "timestamp", "url", "signature"]
  {
    var head, tail := ConfigHead(apis, debug, beta), PackageFields(p);
    Assoc.KeysAppend(head, tail);
    var hk: seq<string>, tk: seq<string> := ["debug", "beta", "jsApiList"], ["appId", "nonceStr", "timestamp", "url", "signature"];
    assert Assoc.Keys(head) == hk && Assoc.Keys(tail) == tk;
    assert hk + tk == ["debug", "beta", "jsApiList", "appId", "nonceStr", "timestamp", "url", "signature"];
  }

  lemma ConfigFieldsHeadLookup(apis: seq<string>, debug: Value, beta: Value, p: Package)
    ensures var a := ConfigHead(apis, debug, beta) + PackageFields(p);
      && Assoc.Find(a, "debug") == Some(Scalar(debug))
      && Assoc.Find(a, "beta") == Some(Scalar(beta))
      && Assoc.Find(a, "jsApiList") == Some(Names(apis))
  {
    var head, tail := ConfigHead(apis, debug, beta), PackageFields(p);
    Assoc.FindAppend(head, tail, "debug");
    Assoc.FindAppend(head, tail, "beta");
    Assoc.FindAppend(head, tail, "jsApiList");
  }

  lemma ConfigFieldsTailLookup(apis: seq<string>, debug: Value, beta: Value, p: Package)
    ensures var a := ConfigHead(apis, debug, beta) + PackageFields(p);
      && Assoc.Find(a, "appId") == Some(Scalar(Str(p.appId)))
      && Assoc.Find(a, "nonceStr") == Some(Scalar(p.nonceStr))
      && Assoc.Find(a, "timestamp") == Some(Scalar(p.timestamp))
      && Assoc.Find(a, "url") == Some(Scalar(p.url))
      && Assoc.Find(a, "signature") == Some(Scalar(Str(p.signature)))
  {
    var head, tail := ConfigHead(apis, debug, beta), PackageFields(p);
    ConfigMergeIsConcat(apis, debug, beta, p);
    assert forall k :: k in Assoc.Keys(tail) ==> Assoc.Find(head + tail, k) == Assoc.Find(tail, k);
  }
}

=== FILE: php.dfy ===
/**
 * The fragment of PHP's value semantics the JS-SDK client relies on:
 * boolean conversion (used by `?:` and by `if ($this->url)`), and the
 * conversion of a scalar to a string performed by string interpolation
 * (`"…{$timestamp}…"`).
 */
module Php {
  import opened Wrappers

  /** A PHP scalar as an argument or a property of the client may hold it. */
  datatype Value = Null | Bool(b: bool) | Int(i: int) | Str(s: string)

  /** PHP's conversion to boolean: null, false, 0, "" and "0" are falsy. */
  predicate Truthy(v: Value) {
    match v
    case Null => false
    case Bool(b) => b
    case Int(i) => i != 0
    case Str(s) => s != "" && s != "0"
  }

  /** Exactly five scalars are falsy. */
  lemma FalsyValues(v: Value)
    ensures !Truthy(v) <==> v in [Null, Bool(false), Int(0), Str(""), Str("0")]
  {
  }

  /** The short ternary `a ?: b`: `a` when it is truthy, otherwise `b`. */
  function Elvis(a: Value, b: Value): (r: Value)
    ensures r == a || r == b
    ensures Truthy(a) ==> r == a
    ensures !Truthy(a) ==> r == b
    ensures Truthy(r) <==> Truthy(a) || Truthy(b)
  {
    if Truthy(a) then a else b
  }

  // ---------------------------------------------------------------------
  // Decimal notation of integers

  predicate IsDigit(c: char) {
    '0' <= c <= '9'
  }

  predicate AllDigits(s: string) {
    forall i :: 0 <= i < |s| ==> IsDigit(s[i])
  }

  function DigitChar(d: nat): (c: char)
    requires d < 10
    ensures IsDigit(c)
    ensures c as int - '0' as int == d
  {
    ('0' as int + d) as char
  }

  function DigitValue(c: char): (d: nat)
    requires IsDigit(c)
    ensures d < 10
    ensures DigitChar(d) == c
  {
    c as int - '0' as int
  }

  /** The decimal digits of `n`, most significant first, without leading zeros. */
  function Digits(n: nat): (s: string)
    ensures |s| > 0 && AllDigits(s)
    ensures s[0] == '0' <==> n == 0
    ensures n == 0 ==> s == "0"
    decreases n
  {
    if n < 10 then [DigitChar(n)] else Digits(n / 10) + [DigitChar(n % 10)]
  }

  /** The number a string of decimal digits denotes. */
  function DigitsValue(s: string): (n: nat)
    requires AllDigits(s)
    decreases |s|
  {
    if |s| == 0 then 0 else 10 * DigitsValue(s[..|s| - 1]) + DigitValue(s[|s| - 1])
  }

  lemma {:induction false} DigitsValueOfDigits(n: nat)
    ensures DigitsValue(Digits(n)) == n
    decreases n
  {
    if n >= 10 {
      var s := Digits(n);
      assert s[..|s| - 1] == Digits(n / 10);
      DigitsValueOfDigits(n / 10);
    }
  }

  /** PHP's string form of an integer: its decimal digits, after `-` when negative. */
  function IntToString(i: int): (s: string)
  {
    if i < 0 then "-" + Digits(-i) else Digits(i)
  }

  /** Reads back an integer written by `IntToString`. */
  function ParseInt(s: string): (r: Option<int>)
    ensures r.Some? ==> (r.value < 0 <==> |s| > 0 && s[0] == '-')
  {
    if |s| > 1 && s[0] == '-' && AllDigits(s[1..]) && DigitsValue(s[1..]) > 0 then
      var n: int := DigitsValue(s[1..]);
      Some(-n)
    else if |s| > 0 && AllDigits(s) then
      Some(DigitsValue(s))
    else
      None
  }

  lemma IntToStringRoundTrip(i: int)
    ensures ParseInt(IntToString(i)) == Some(i)
  {
    var s := IntToString(i);
    if i < 0 {
      var d := Digits(-i);
      assert s == "-" + d;
      assert s[1..] == d;
      DigitsValueOfDigits(-i);
      assert |s| > 1 && s[0] == '-' && AllDigits(s[1..]) && DigitsValue(s[1..]) > 0;
    } else {
      assert s == Digits(i);
      assert IsDigit(s[0]);
      DigitsValueOfDigits(i);
    }
  }

  lemma IntToStringInjective(i: int, j: int)
    ensures IntToString(i) == IntToString(j) <==> i == j
  {
    IntToStringRoundTrip(i);
    IntToStringRoundTrip(j);
  }

  // ---------------------------------------------------------------------
  // String conversion

  /** What `"{$v}"` inserts for a scalar `v`. */
  function ToString(v: Value): (s: string)
    ensures v.Int? ==> ParseInt(s) == Some(v.i)
    ensures '&' in s ==> v.Str?
  {
    match v
    case Null => ""
    case Bool(b) => if b then "1" else ""
    case Int(i) =>
      IntToStringRoundTrip(i);
      IntToStringHasNoAmpersand(i);
      IntToString(i)
    case Str(s) => s
  }

  /** An interpolated integer never contains the template separator `&`. */
  lemma IntToStringHasNoAmpersand(i: int)
    ensures '&' !in IntToString(i)
  {
  }

  /** Converting to a string keeps PHP truthiness: a value is truthy exactly when its string form is. */
  lemma ToStringPreservesTruthiness(v: Value)
    ensures Truthy(v) <==> Truthy(Str(ToString(v)))
  {
    match v
    case Int(i) =>
      if i < 0 {
        assert ToString(v)[0] == '-';
      } else if i > 0 {
        assert Digits(i)[0] != '0';
      }
    case _ =>
  }

  /** A truthy value never converts to the empty string. */
  lemma TruthyToStringNonEmpty(v: Value)
    requires Truthy(v)
    ensures |ToString(v)| > 0
  {
    ToStringPreservesTruthiness(v);
  }
}

=== FILE: wrappers.dfy ===
/** Optional values and success/failure results shared by the other modules. */
module Wrappers {

  datatype Option<+T> = None | Some(value: T)

  /** Either the value an operation produced or the error that aborted it. */
  datatype Result<+T, +E> = Success(value: T) | Failure(error: E)
}
